=== FILE: README.md ===
# Platformer core: a Dafny model

This project models the arithmetic core of a small 2D platformer demo written
in Go on the ebiten engine. It covers:

- the sprite-sheet indexer, which maps a frame number to a square sub-rectangle;
- the animation clip, a countdown that steps a frame cursor and wraps it;
- the player's movement states and the choice of animation clip from (dx, dy);
- the collider list derived from the tile map's object layers;
- the two tileset kinds: tile id to source image, the choice between them
  from the path, and the image-path clean-up;
- the per-tick update of `Game.Update`: arrow keys, horizontal pushback, the
  active clip's tick, jump, gravity, the fall-speed clamp and vertical
  pushback.

Everything is a pure function over immutable records. Go's truncating integer
`/` and `%` and its `int(float64)` conversion are written out in `GoInt`,
because Dafny's own operators round differently on negative operands. The
`image.Rect` / `Rectangle.Overlaps` behaviour used by the source is in
`Geometry`. `strings.Contains`, `strings.ReplaceAll` and `strings.TrimPrefix`
are in `GoStrings`.

Modules, one per Go package: `SpriteSheets` (spritesheet), `Animations`
(animations), `Entities` (entities), `Tilemaps` (tilemap), `Tilesets`
(tileset), `MainLoop` (main). `Wrappers` holds `Option` and `Result`. The
game's tile size comes from a constants package that is not part of this
model, so it is a positive parameter `T`.

## Model

| member | source | states |
|---|---|---|
| GoInt.Quot | spritesheet/spritesheet.go:13 | Go's int division: rounds toward zero, leaving a remainder with the sign of the dividend and smaller than the divisor; for non-negative operands it agrees with floor division |
| GoInt.Rem | spritesheet/spritesheet.go:12 | Go's `%`: `a == b*(a/b) + a%b`; the remainder has the dividend's sign and is smaller in size than the divisor |
| GoInt.Trunc | tilemap/tilemap.go:40-45 | `int(x)` for a float: the result is within one unit of `x`, toward zero |
| Geometry.Rect | spritesheet/spritesheet.go:15 | `image.Rect`: a canonical rectangle, with the smaller coordinate first, holding the same pair of coordinates on each axis |
| Geometry.OverlapsIffSharedPoint | main.go:96-103 | `Rectangle.Overlaps` holds exactly when some point lies in both half-open rectangles, which requires both to be non-empty and their intervals to meet on both axes |
| SpriteSheets.NewSpriteSheet | spritesheet/spritesheet.go:18-24 | the sheet keeps width, height and tile size exactly as given |
| SpriteSheets.FrameRect | spritesheet/spritesheet.go:11-16 | the rectangle is a Tilesize square; for a non-negative index its corner is ((index mod W)·Tilesize, (index div W)·Tilesize) |
| SpriteSheets.FrameRectColumnWithinSheet | spritesheet/spritesheet.go:12 | for index ≥ 0 the corner's x lies in [0, (W−1)·Tilesize] and its y is non-negative |
| SpriteSheets.FrameRectNextRow | spritesheet/spritesheet.go:12-13 | for index ≥ 0, index + W has the same x and a y larger by Tilesize |
| SpriteSheets.FrameRectRoundTrip | spritesheet/spritesheet.go:11-16 | the frame index can be recovered from the rectangle's corner |
| SpriteSheets.FrameRectInjective | spritesheet/spritesheet.go:12-15 | distinct non-negative indices give distinct rectangles |
| SpriteSheets.FrameRectIgnoresHeight | spritesheet/spritesheet.go:5-16 | `HeightInTiles` has no effect, so the row is unbounded |
| SpriteSheets.FrameRectNegativeIndex | spritesheet/spritesheet.go:12-13 | an index in (−W, 0) stays on row 0 at a negative x; the index does not wrap to the row above |
| SpriteSheets.FrameRectFirstRow | spritesheet/spritesheet.go:12-13 | the first WidthInTiles frames lie side by side on row 0, frame i at x = i·Tilesize |
| SpriteSheets.FrameRectFirstFrame | spritesheet/spritesheet.go:11-16 | frame 0 is the Tilesize square at the origin |
| SpriteSheets.FrameRectSecondRowExample | spritesheet/spritesheet.go:11-16 | on a 12-wide sheet of 16-pixel frames, frame 13 is (16,16)-(32,32) |
| Animations.NewAnimation | animations/animations.go:34-45 | a fresh clip keeps its settings, has a full countdown, and `CurrentFrame` returns `first` |
| Animations.CurrentFrame | animations/animations.go:30-32 | the frame shown is the clip's cursor, which Update and UpdateTimes keep within [First, Last] when Step ≥ 0 |
| Animations.NextFrame | animations/animations.go:22-26 | the next frame is f + Step when that does not pass Last, and First when it does |
| Animations.Update | animations/animations.go:19-28 | only the countdown and cursor change. A countdown of at least 1 drops by one and the frame holds. A countdown below 1 reloads to Speed and the frame advances. With Step ≥ 0 the cursor stays in [First, Last]; a countdown in [0, Speed] stays there |
| Animations.UpdateTimes | animations/animations.go:19-28 | any number of updates changes only countdown and cursor, and keeps the cursor in [First, Last] when Step ≥ 0 |
| Animations.UpdateTimesAdd | animations/animations.go:19-28 | m + n updates are m updates followed by n more: the clip carries no state outside its fields |
| Animations.CountDown | animations/animations.go:20-21 | while the countdown lasts, j updates only lower it by j |
| Animations.OneCycle | animations/animations.go:20-26 | from a full countdown, Speed + 1 updates advance the frame once and restore the countdown |
| Animations.Cadence | animations/animations.go:19-28 | from a full countdown (Speed ≥ 0), q full cycles plus r ≤ Speed updates advance the frame q times and leave the countdown at Speed − r |
| Animations.FreshCadence | animations/animations.go:19-45 | from a fresh clip, n updates advance the frame n div (Speed+1) times and leave the countdown at Speed − n mod (Speed+1) |
| Animations.AdvancesOnEveryCycle | animations/animations.go:20-23 | the n-th update after a fresh start advances the frame exactly when n is a multiple of Speed + 1 |
| Animations.IdleClipTimeline | main.go:82 | the idle clip (0..10, step 1, speed 5) shows frame 9 after 55 updates and wraps to 0 after 66 |
| Entities.SelectState | entities/player.go:24-38 | Idle iff dx = dy = 0; Running iff dx > 0; Jumping iff dx ≤ 0 and dy > 0; nothing iff (dx < 0, dy ≤ 0) or (dx = 0, dy < 0); the other four states are never chosen |
| Entities.ActiveAnimation | entities/player.go:24-38 | a clip is returned iff a state is selected and the map has it, and it is that map entry |
| Entities.LeftwardHasNoClip | entities/player.go:37 | leftward motion without a positive dy yields no clip |
| Entities.UnselectableClipsIgnored | entities/player.go:7-15 | clips stored for Hitting, DoubleJumping, WallJumping or Falling never change the result |
| Entities.ActiveAnimationReadsOnlyClips | entities/player.go:24-38 | the result depends on dx, dy and the clip map only |
| Tilemaps.ObjectCollider | tilemap/tilemap.go:40-45 | each field is truncated separately; for non-negative size the corner is (int X, int Y) and the size is (int W, int H) |
| Tilemaps.LayerColliders | tilemap/tilemap.go:39-46 | one rectangle per object of a layer, in object order |
| Tilemaps.GetColliders | tilemap/tilemap.go:36-49 | the list length is the total object count over all layers; a map with no layers gives an empty list |
| Tilemaps.CollidersOfAppend | tilemap/tilemap.go:38-47 | the colliders of two layer lists joined are the two collider lists joined |
| Tilemaps.GetCollidersOrder | tilemap/tilemap.go:38-45 | object j of layer i is at position (objects in earlier layers) + j: layer order first, then object order |
| Tilemaps.EmptyLayerContributesNothing | tilemap/tilemap.go:38-39 | a layer without objects adds nothing wherever it sits |
| Tilemaps.GetCollidersExample | tilemap/tilemap.go:36-49 | one object {10, 20, 5, 5} gives exactly the collider (10,20)-(15,25) |
| Tilesets.UniformSource | tileset/tileset.go:32-38 | a T-by-T square; for local id k ≥ 0 its corner is ((k mod 22)·T, (k div 22)·T); for k ≤ 0 the corner is never right of or below the origin |
| Tilesets.Img | tileset/tileset.go:29-60 | uniform: a sub-rectangle of its one image, at local id id − gid. Per-tile: defined iff gid ≤ id < gid + len(imgs), and then it is imgs[id − gid] |
| Tilesets.UniformSourceRoundTrip | tileset/tileset.go:30-36 | the local id can be recovered from the source corner with the fixed 22-tile row width |
| Tilesets.UniformSourceBelowGid | tileset/tileset.go:30-33 | a local id in (−22, 0) lands on row 0 at a negative x |
| Tilesets.NormalizePath | tileset/tileset.go:82-84 | no backslash remains; exactly two, one or no leading "../" are removed, according to how many the slash-converted path starts with |
| Tilesets.NormalizePathDropsTwoParents | tileset/tileset.go:83-84 | for a rest without backslashes, "../../" + rest becomes rest, and "../../../" + rest keeps one "../" |
| Tilesets.NormalizePathWindows | tileset/tileset.go:82-84 | for a rest without backslashes, "..\..\" + rest becomes rest |
| Tilesets.NormalizePathPlain | tileset/tileset.go:83-84 | a path without a leading "../" or a backslash is unchanged |
| Tilesets.LoadTiles | tileset/tileset.go:79-93 | on success one image per listed tile, in list order, each loaded from its normalised path. It fails iff some tile's image is missing, and the error names the first such tile |
| Tilesets.NewTileset | tileset/tileset.go:62-125 | an unreadable description fails. Success gives the per-tile kind iff the path contains "buildings". Both kinds record gid unchanged. Each kind succeeds iff its images load, and it holds exactly those images |
| Tilesets.LoadTilesIgnoresIds | tileset/tileset.go:79-92 | tile lists that agree on paths give the same result whatever their `Id` fields |
| Tilesets.DynTilesetLookup | tileset/tileset.go:57-93 | in a per-tile tileset, id gid + i is the image of the i-th listed tile |
| GoStrings.Contains | tileset/tileset.go:68 | true iff the substring occurs at some position |
| GoStrings.ReplaceAll | tileset/tileset.go:82 | same length, every `from` becomes `to` and every other character stays put, and, when `from` ≠ `to`, no `from` remains |
| GoStrings.TrimPrefix | tileset/tileset.go:83 | removes one leading copy of the prefix if present, otherwise returns the string unchanged |
| MainLoop.Box | main.go:96-101 | the box tested against each collider is the T-by-T square at the truncated position |
| MainLoop.PushHorizontal | main.go:96-108 | only X changes. An overlapping collider sets X to Min.X − T when Dx > 0 and to Max.X when Dx < 0; Dx = 0 changes nothing. X never moves further in the direction of motion, and a moving sprite ends clear of the collider |
| MainLoop.PushVertical | main.go:115-127 | the same on Y with the sign of Dy |
| MainLoop.CheckCollisionHorizontal | main.go:94-111 | only X changes; Dx = 0 changes nothing; X never moves in the direction of motion; a moved X is flush against the near side of one of the colliders |
| MainLoop.CheckCollisionVertical | main.go:113-130 | the same on Y with the sign of Dy |
| MainLoop.HorizontalSequential | main.go:95-110 | checking a + b equals checking a, then b from the corrected position |
| MainLoop.VerticalSequential | main.go:114-129 | checking a + b equals checking a, then b from the corrected position |
| MainLoop.SingleColliderSeparates | main.go:94-130 | with one collider and a non-zero velocity on the axis, the T box no longer overlaps it |
| MainLoop.PushAgainstWallExample | main.go:104-105 | a sprite moving right into [50, 66) ends with its right edge at 50 |
| MainLoop.LaterPushCanReenterEarlierCollider | main.go:95-110 | a later push can move the sprite into an earlier collider that is not tested again |
| MainLoop.Steer | main.go:134-149 | Dx resets to 0. Left gives Dx = −2 and Flip; Right gives Dx = 2 and no Flip, and wins when both are held. X moves by Dx |
| MainLoop.AdvanceActiveAnimation | main.go:153-156 | only the clip selected by the truncated (Dx, Dy) takes one update; the other clips and the map's keys are unchanged |
| MainLoop.Jump | main.go:160-163 | a press sets an upward velocity (the impulse, below zero) and the "jumping" label whether or not the player stands on anything; only Dy and the label change, and without a press nothing changes |
| MainLoop.Fall | main.go:165-177 | Y moves by the velocity before the clamp. Dy ends ≤ 300. When clamped the state is "running" or "idle" from the arrow keys, otherwise "jumping" |
| MainLoop.Tick | main.go:132-189 | colliders, health and clip keys are kept; Dy ≤ 300; Dx and Flip follow the arrow keys with Right winning |
| MainLoop.TickVertical | main.go:160-177 | after a tick, Dy and the state depend only on the old Dy (or the jump impulse) plus one tick of gravity and on the arrow keys |
| MainLoop.TickInOpenSpace | main.go:149-166 | with no colliders, X moves by the new Dx and Y by one tick of the unclamped vertical velocity |
| MainLoop.JumpRisesInOpenSpace | main.go:160-166 | with no colliders, a tick with the jump key pressed ends with a smaller Y, whatever the previous vertical velocity |
| MainLoop.JumpFromRestSelectsNoClip | main.go:153-163 | a jump with no arrow key, from the clamped fall speed, leaves a velocity for which no clip is selected |
| MainLoop.NewPlayer | main.go:68-86 | the starting player is at (30, 180) with health 100. It has clips only for Idle, Running and Jumping. Each starts at frame 0 with step 1 and speed 5, has its last frame within its sheet's width, and uses frames of side 2T |
| MainLoop.NewPlayerFramesStayOnSheet | main.go:68-86 | after any number of updates, the starting player's clips show a frame on row 0 inside the sheet's width |
| MainLoop.WalkingLeftShowsJumpClip | main.go:153 | walking left on the ground (Dy clamped at 300) plays the Jumping clip |

## Notes

- Frames are laid out row-major with `WidthInTiles` frames per row, so
  frame 13 of a 12-wide, 16-pixel sheet is on the second row, at
  (16,16)-(32,32), and not on row 0.
- With speed 5 the countdown runs 5, 4, …, 0, −1, so the frame advances once
  every six updates, and 55 updates of the idle clip show frame 9.
- `ActiveAnimation` returns no clip for leftward motion with dy ≤ 0, and for
  dx = 0 with dy < 0. Right after a jump with no arrow key the velocity is in
  that region (`JumpFromRestSelectsNoClip`). `Game.Draw` then reads the clip's
  sprite sheet without a nil check. Drawing is not part of this model, so the
  crash itself is not stated.
- Go panics are modelled explicitly. A zero sheet width in `FrameRect`
  becomes a precondition. An out-of-range per-tile lookup returns `None`.
- `Flip` is a field of `Player`, as declared in the entities package. `State`
  is a field of the embedded sprite.

## Left out

- Rendering: `Game.Draw`, `Layout`, `main`, GeoM transforms, `SubImage`
  pixel clipping and debug printing. These are engine calls with no logic of
  the core.
- The camera (`FollowTarget`, `Constrain`) and the constants package: their
  sources are not part of this model. The tile size is the parameter `T`.
  The camera call also reads `Layers[0]` of the map, which panics on every
  tick of a map with no layers. `MainLoop.Tick` leaves the camera out, so it
  is total and does not model that panic.
- SpriteSheets.FrameRect: Go panics on a sheet of width 0. The model does
  not describe the panic; it requires a non-zero width instead. Every sheet
  the game builds has width 11, 12 or 1.
- File and JSON I/O: `NewTilemapJSON`, `GetTilesetPath`, and the reading and
  decoding in `NewTileset`. The decoded description is passed in, and an
  unreadable or malformed file is one error case.
- `filepath.Clean`: not modelled. The source cleans the path before the
  slash and prefix fix-ups, while the model applies the fix-ups to the raw
  path. For example, the source turns `./../../x` into `x`, but
  `NormalizePath` leaves `./../../x` as it is. Paths that `Clean` leaves
  unchanged behave alike.
- `filepath.Join("assets/", …)` and image decoding. `Join` only rewrites
  the path text, with a separator that depends on the operating system.
  Decoding reads the file system. Both are folded into the `load` parameter,
  which receives the `ReplaceAll`/`TrimPrefix` result.
- The physics space created in `NewGame`: it is never used.
- Keyboard polling: the keys are the boolean fields of `Input`.
- Floating-point rounding: float64 positions, velocities and object fields
  are exact reals. `1/60` and `800·(1/60)` are therefore exact, and rounding
  or NaN is not modelled.
- Animations.Update: the float32 speed and countdown are integers, so a
  fractional speed is not covered. The game only passes speed 5.
- Go's 64-bit integer wrap-around and the implementation-defined result of
  converting an out-of-range float to int: Dafny integers are unbounded.
- Nil entries in the layer and tile slices, which would panic, are not
  represented.
- The sprite's `W` and `H` fields and the map's untyped `Tilesets` list: no
  modelled operation reads them.
- `TileJSON.Width`/`Height`: parsed but never used by the source.
- The `fmt.Println` logging in `NewTileset`: it prints the uniform image
  path before and after the fix-ups and has no effect on the result.
- Go strings are byte sequences, while `GoStrings` works on characters. This
  makes no difference for the ASCII patterns the source uses (`"buildings"`,
  `\`, `"../"`).

=== FILE: animations.dfy ===
/** Package animations: a frame cursor that advances over [First, Last] by
    `Step` once every `SpeedInTps + 1` updates. The source keeps the speed and
    the countdown as float32; integral speeds, which are the only ones the
    game passes, are modelled exactly by integers. */
module Animations {
  import opened GoInt
  import opened Geometry
  import opened SpriteSheets

  datatype Animation = Animation(
    First: int,
    Last: int,
    Step: int,
    SpeedInTps: int,
    frameCounter: int,
    frame: int,
    Spritesheet: SpriteSheet,
    Img: Image)

  /** `NewAnimation`: a fresh clip shows its first frame with a full countdown. */
  function NewAnimation(first: int, last: int, step: int, speed: int, spriteSheet: SpriteSheet, img: Image): (a: Animation)
    ensures a.First == first && a.Last == last && a.Step == step && a.SpeedInTps == speed
    ensures a.Spritesheet == spriteSheet && a.Img == img
    ensures a.frameCounter == speed
    ensures CurrentFrame(a) == first
  {
    Animation(first, last, step, speed, speed, first, spriteSheet, img)
  }

  /** `CurrentFrame`: the frame the clip shows now, its cursor. */
  function CurrentFrame(a: Animation): (f: int)
    ensures f == a.frame
  {
    a.frame
  }

  /** The frame that follows `f`: `Step` further on, or back to `First` once
      that passes `Last`. */
  function NextFrame(a: Animation, f: int): (g: int)
    ensures f + a.Step <= a.Last ==> g == f + a.Step
    ensures a.Last < f + a.Step ==> g == a.First
    ensures g <= a.Last || g == a.First
  {
    if f + a.Step > a.Last then a.First else f + a.Step
  }

  /** `Animation.Update`: one tick of the countdown. */
  function Update(a: Animation): (r: Animation)
    // only the countdown and the cursor change
    ensures r == a.(frameCounter := r.frameCounter, frame := r.frame)
    // while the countdown stays non-negative the frame holds
    ensures 1 <= a.frameCounter ==> r.frameCounter == a.frameCounter - 1 && r.frame == a.frame
    // when it drops below zero it is reloaded and the frame advances
    ensures a.frameCounter < 1 ==> r.frameCounter == a.SpeedInTps && r.frame == NextFrame(a, a.frame)
    // the cursor stays within the clip
    ensures a.First <= a.frame <= a.Last && 0 <= a.Step ==> r.First <= r.frame <= r.Last
    // the countdown stays within [0, SpeedInTps]
    ensures 0 <= a.frameCounter <= a.SpeedInTps ==> 0 <= r.frameCounter <= r.SpeedInTps
  {
    var counter := a.frameCounter - 1;
    if counter < 0 then
      a.(frameCounter := a.SpeedInTps, frame := NextFrame(a, a.frame))
    else
      a.(frameCounter := counter)
  }

  /** `n` successive calls of `Update`. */
  function UpdateTimes(a: Animation, n: nat): (r: Animation)
    ensures r == a.(frameCounter := r.frameCounter, frame := r.frame)
    ensures a.First <= a.frame <= a.Last && 0 <= a.Step ==> r.First <= r.frame <= r.Last
    decreases n
  {
    if n == 0 then a else UpdateTimes(Update(a), n - 1)
  }

  /** The frame reached from `f` after `q` advances. */
  function Advance(a: Animation, f: int, q: nat): int
    decreases q
  {
    if q == 0 then f else Advance(a, NextFrame(a, f), q - 1)
  }

  lemma {:induction false} AdvanceIgnoresCursor(a: Animation, cursor: int, f: int, q: nat)
    ensures Advance(a.(frame := cursor), f, q) == Advance(a, f, q)
    decreases q
  {
    if q > 0 {
      AdvanceIgnoresCursor(a, cursor, NextFrame(a, f), q - 1);
    }
  }

  lemma {:induction false} UpdateTimesAdd(a: Animation, m: nat, n: nat)
    ensures UpdateTimes(a, m + n) == UpdateTimes(UpdateTimes(a, m), n)
    decreases m
  {
    if m > 0 {
      UpdateTimesAdd(Update(a), m - 1, n);
    }
  }

  /** While the countdown lasts, updates only count it down. */
  lemma {:induction false} CountDown(a: Animation, j: nat)
    requires j <= a.frameCounter
    ensures UpdateTimes(a, j) == a.(frameCounter := a.frameCounter - j)
    decreases j
  {
    if j > 0 {
      CountDown(Update(a), j - 1);
    }
  }

  /** From a full countdown, `SpeedInTps + 1` updates advance the frame once
      and leave the countdown full again. */
  lemma OneCycle(a: Animation)
    requires 0 <= a.SpeedInTps && a.frameCounter == a.SpeedInTps
    ensures UpdateTimes(a, a.SpeedInTps + 1) == a.(frame := NextFrame(a, a.frame))
  {
    CountDown(a, a.SpeedInTps);
    UpdateTimesAdd(a, a.SpeedInTps, 1);
  }

  /** The number of updates in q full countdown cycles of a clip with speed s. */
  function CycleLength(q: nat, s: nat): nat
    decreases q
  {
    if q == 0 then 0 else (s + 1) + CycleLength(q - 1, s)
  }

  lemma {:induction false} CycleLengthIsProduct(q: nat, s: nat)
    ensures CycleLength(q, s) == q * (s + 1)
    decreases q
  {
    if q > 0 {
      CycleLengthIsProduct(q - 1, s);
      assert q * (s + 1) == (q - 1) * (s + 1) + (s + 1);
    }
  }

  /** After q full cycles and r more updates, the frame has advanced q times
      and the countdown stands at SpeedInTps - r. */
  lemma {:induction false} Cadence(a: Animation, q: nat, r: nat)
    requires 0 <= a.SpeedInTps && a.frameCounter == a.SpeedInTps && r <= a.SpeedInTps
    ensures UpdateTimes(a, CycleLength(q, a.SpeedInTps) + r)
         == a.(frameCounter := a.SpeedInTps - r, frame := Advance(a, a.frame, q))
    decreases q
  {
    var s := a.SpeedInTps;
    if q == 0 {
      CountDown(a, r);
    } else {
      var next := NextFrame(a, a.frame);
      var b := a.(frame := next);
      var rest := CycleLength(q - 1, s) + r;
      UpdateTimesAdd(a, s + 1, rest);
      OneCycle(a);
      var mid := UpdateTimes(a, s + 1);
      assert mid == b;
      Cadence(b, q - 1, r);
      var adv := Advance(b, next, q - 1);
      AdvanceIgnoresCursor(a, next, next, q - 1);
      assert adv == Advance(a, a.frame, q);
      assert UpdateTimes(b, rest) == a.(frameCounter := s - r, frame := adv);
    }
  }

  /** Starting from a fresh clip with speed S >= 0, after n updates the frame
      has advanced n / (S + 1) times. */
  lemma FreshCadence(a: Animation, n: nat)
    requires 0 <= a.SpeedInTps && a.frameCounter == a.SpeedInTps
    ensures UpdateTimes(a, n).frame == Advance(a, a.frame, n / (a.SpeedInTps + 1))
    ensures UpdateTimes(a, n).frameCounter == a.SpeedInTps - n % (a.SpeedInTps + 1)
  {
    var d := a.SpeedInTps + 1;
    var q, r := n / d, n % d;
    CycleLengthIsProduct(q, a.SpeedInTps);
    assert CycleLength(q, a.SpeedInTps) + r == n;
    Cadence(a, q, r);
    assert UpdateTimes(a, n) == a.(frameCounter := a.SpeedInTps - r, frame := Advance(a, a.frame, q));
  }

  lemma UpdateTimesLast(a: Animation, n: nat)
    requires 1 <= n
    ensures UpdateTimes(a, n) == Update(UpdateTimes(a, n - 1))
  {
    UpdateTimesAdd(a, n - 1, 1);
  }

  /** n - 1 is one short of a multiple of d exactly when n is a multiple. */
  lemma PredecessorOfMultiple(n: nat, d: int)
    requires 1 <= n && 0 < d
    ensures (n - 1) % d == d - 1 <==> n % d == 0
  {
    var q, r := (n - 1) / d, (n - 1) % d;
    if r == d - 1 {
      assert n == (q + 1) * d + 0;
      DivModUnique(n, d, q + 1, 0);
    } else {
      DivModUnique(n, d, q, r + 1);
    }
  }

  /** The n-th update after a fresh start advances the frame exactly when n is
      a multiple of S + 1, and leaves it alone otherwise. */
  lemma AdvancesOnEveryCycle(a: Animation, n: nat)
    requires 0 <= a.SpeedInTps && a.frameCounter == a.SpeedInTps && 1 <= n
    ensures n % (a.SpeedInTps + 1) == 0 ==>
      UpdateTimes(a, n).frame == NextFrame(a, UpdateTimes(a, n - 1).frame)
    ensures n % (a.SpeedInTps + 1) != 0 ==>
      UpdateTimes(a, n).frame == UpdateTimes(a, n - 1).frame
  {
    UpdateTimesLast(a, n);
    FreshCadence(a, n - 1);
    PredecessorOfMultiple(n, a.SpeedInTps + 1);
  }

  /** The game's idle clip (frames 0..10, step 1, speed 5): six updates per
      frame, so 55 updates show frame 9 and the clip wraps to 0 at 66. */
  lemma IdleClipTimeline(sheet: SpriteSheet, img: Image)
    ensures UpdateTimes(NewAnimation(0, 10, 1, 5, sheet, img), 55).frame == 9
    ensures UpdateTimes(NewAnimation(0, 10, 1, 5, sheet, img), 66).frame == 0
  {
    var a := NewAnimation(0, 10, 1, 5, sheet, img);
    Cadence(a, 9, 1);
    Cadence(a, 11, 0);
    CycleLengthIsProduct(9, 5);
    CycleLengthIsProduct(11, 5);
    assert Advance(a, 0, 9) == 9;
    assert Advance(a, 0, 11) == 0;
  }
}

=== FILE: entities.dfy ===
/** Package entities: the player, its movement states and the choice of
    animation clip from the current velocity. */
module Entities {
  import opened Wrappers
  import opened Animations

  /** `PlayerState`, a uint8 enumeration numbered in declaration order. */
  datatype PlayerState = Idle | Running | Jumping | Hitting | DoubleJumping | WallJumping | Falling

  /** The embedded sprite: position and velocity (float64 in the source,
      reals here) and a free-form state label. */
  datatype Sprite = Sprite(X: real, Y: real, Dx: real, Dy: real, State: string)

  /** A key absent from `Animations` plays the role of Go's nil clip. */
  datatype Player = Player(
    Sprite: Sprite,
    Health: nat,
    Animations: map<PlayerState, Animation>,
    Flip: bool)

  /** The state whose clip `ActiveAnimation` looks up, in its priority order:
      at rest, moving right, then moving down; nothing otherwise. */
  function SelectState(dx: int, dy: int): (k: Option<PlayerState>)
    ensures k == Some(Idle) <==> dx == 0 && dy == 0
    ensures k == Some(Running) <==> 0 < dx
    ensures k == Some(Jumping) <==> dx <= 0 && 0 < dy
    ensures k == None <==> (dx < 0 && dy <= 0) || (dx == 0 && dy < 0)
    ensures k.Some? ==> k.value in {Idle, Running, Jumping}
  {
    if dx == 0 && dy == 0 then Some(Idle)
    else if dx > 0 then Some(Running)
    else if dy > 0 then Some(Jumping)
    else None
  }

  /** `Player.ActiveAnimation(dx, dy)`: the clip of the selected state, or
      nothing when no state is selected or the map has no clip for it. */
  function ActiveAnimation(p: Player, dx: int, dy: int): (r: Option<Animation>)
    ensures r.Some? <==> SelectState(dx, dy).Some? && SelectState(dx, dy).value in p.Animations
    ensures r.Some? ==> r.value == p.Animations[SelectState(dx, dy).value]
  {
    match SelectState(dx, dy)
    case None => None
    case Some(k) => if k in p.Animations then Some(p.Animations[k]) else None
  }

  /** Moving left without falling yields no clip, whatever the map holds. */
  lemma LeftwardHasNoClip(p: Player, dx: int, dy: int)
    requires dx < 0 && dy <= 0
    ensures ActiveAnimation(p, dx, dy) == None
  {
  }

  /** Only the three selectable states ever matter: the clips stored for the
      other four never affect the result. */
  lemma UnselectableClipsIgnored(p: Player, extra: map<PlayerState, Animation>, dx: int, dy: int)
    requires forall k :: k in extra ==> k !in {Idle, Running, Jumping}
    ensures ActiveAnimation(p.(Animations := p.Animations + extra), dx, dy) == ActiveAnimation(p, dx, dy)
  {
  }

  /** The lookup depends on the clip map alone: position, velocity, state
      label, health and flip play no part. */
  lemma ActiveAnimationReadsOnlyClips(p: Player, q: Player, dx: int, dy: int)
    requires p.Animations == q.Animations
    ensures ActiveAnimation(p, dx, dy) == ActiveAnimation(q, dx, dy)
  {
  }
}

=== FILE: geometry.dfy ===
/** The part of Go's `image` package the game relies on: integer points,
    rectangles, the canonicalising constructor `image.Rect` and
    `Rectangle.Overlaps`; plus an opaque handle for a loaded image. */
module Geometry {

  datatype Point = Point(X: int, Y: int)

  /** A rectangle containing the points with Min.X <= x < Max.X and
      Min.Y <= y < Max.Y. */
  datatype Rectangle = Rectangle(Min: Point, Max: Point) {

    /** Canonical form: Min is the top-left corner. */
    predicate WellFormed()
    {
      Min.X <= Max.X && Min.Y <= Max.Y
    }

    predicate Empty()
    {
      Min.X >= Max.X || Min.Y >= Max.Y
    }

    function Dx(): int
    {
      Max.X - Min.X
    }

    function Dy(): int
    {
      Max.Y - Min.Y
    }

    /** Go's `p.In(r)`: the half-open rectangle holds the point. */
    predicate Has(p: Point)
    {
      Min.X <= p.X < Max.X && Min.Y <= p.Y < Max.Y
    }

    /** Go's `r.Overlaps(s)`: both are non-empty and their interiors meet. */
    predicate Overlaps(s: Rectangle)
    {
      && !Empty() && !s.Empty()
      && Min.X < s.Max.X && s.Min.X < Max.X
      && Min.Y < s.Max.Y && s.Min.Y < Max.Y
    }
  }

  function MinOf(a: int, b: int): int
  {
    if a <= b then a else b
  }

  function MaxOf(a: int, b: int): int
  {
    if a <= b then b else a
  }

  /** Go's `image.Rect(x0, y0, x1, y1)`: swaps the coordinates of an axis
      whose bounds are given in decreasing order. */
  function Rect(x0: int, y0: int, x1: int, y1: int): (r: Rectangle)
    ensures r.WellFormed()
    ensures multiset{r.Min.X, r.Max.X} == multiset{x0, x1}
    ensures multiset{r.Min.Y, r.Max.Y} == multiset{y0, y1}
  {
    Rectangle(Point(MinOf(x0, x1), MinOf(y0, y1)), Point(MaxOf(x0, x1), MaxOf(y0, y1)))
  }

  /** A rectangle given by ordered bounds is stored as given. */
  lemma RectOrdered(x0: int, y0: int, x1: int, y1: int)
    requires x0 <= x1 && y0 <= y1
    ensures Rect(x0, y0, x1, y1) == Rectangle(Point(x0, y0), Point(x1, y1))
  {
  }

  /** Two rectangles overlap exactly when some integer point lies in both:
      the emptiness tests and the strict bounds of `Overlaps` describe the
      half-open intervals meeting on both axes. */
  lemma OverlapsIffSharedPoint(r: Rectangle, s: Rectangle)
    ensures r.Overlaps(s) <==> exists p: Point :: r.Has(p) && s.Has(p)
  {
    if r.Overlaps(s) {
      var p := Point(MaxOf(r.Min.X, s.Min.X), MaxOf(r.Min.Y, s.Min.Y));
      assert r.Has(p) && s.Has(p);
    }
  }

  /** An ebiten image handle; pixels are never inspected by the model. */
  datatype Image = Image(handle: nat)
}

=== FILE: goint.dfy ===
/** Go's integer division and float-to-int conversion. Both round toward
    zero, unlike Dafny's Euclidean `/` and `%`, so they are written out. */
module GoInt {

  function Abs(a: int): int
  {
    if a < 0 then -a else a
  }

  /** Go's `a / b` on ints: the quotient truncated toward zero.
      Go panics when `b == 0`. */
  function Quot(a: int, b: int): (q: int)
    requires b != 0
    ensures 0 <= a && 0 < b ==> q == a / b
    ensures 0 <= a ==> 0 <= a - b * q < Abs(b)
    ensures a <= 0 ==> -Abs(b) < a - b * q <= 0
  {
    if 0 <= a then
      if 0 < b then a / b else -(a / -b)
    else
      if 0 < b then -((-a) / b) else (-a) / (-b)
  }

  /** Go's `a % b` on ints: the remainder takes the sign of the dividend. */
  function Rem(a: int, b: int): (r: int)
    requires b != 0
    ensures a == b * Quot(a, b) + r
    ensures 0 <= a && 0 < b ==> r == a % b
    ensures 0 <= a ==> 0 <= r < Abs(b)
    ensures a <= 0 ==> -Abs(b) < r <= 0
  {
    a - b * Quot(a, b)
  }

  /** Go's `int(x)` for a float64 `x`, with the float modelled as a real:
      the fraction is discarded (truncation toward zero). */
  function Trunc(x: real): (n: int)
    ensures 0.0 <= x ==> n as real <= x < n as real + 1.0
    ensures x <= 0.0 ==> n as real - 1.0 < x <= n as real
  {
    if 0.0 <= x then x.Floor else -((-x).Floor)
  }

  lemma TruncOfInt(n: int)
    ensures Trunc(n as real) == n
  {
  }

  /** Truncation moves a value by less than one unit. */
  lemma TruncWithinOne(x: real)
    ensures (Trunc(x) - 1) as real < x < (Trunc(x) + 1) as real
  {
  }

  lemma MulMonotone(a: int, b: int, c: int)
    requires a <= b && 0 <= c
    ensures a * c <= b * c
  {
  }

  /** Division with remainder is unique: this is how Dafny's `/` and `%`
      are recognised from a decomposition. */
  lemma DivModUnique(n: int, d: int, q: int, r: int)
    requires 0 < d && 0 <= r < d && n == q * d + r
    ensures n / d == q && n % d == r
  {
    var q', r' := n / d, n % d;
    assert n == q' * d + r';
    assert (q - q') * d == r' - r;
    if q' < q {
      MulMonotone(1, q - q', d);
    } else if q < q' {
      MulMonotone(1, q' - q, d);
    }
  }

  lemma MulDivCancel(a: int, b: int)
    requires 0 < b
    ensures (a * b) / b == a && (a * b) % b == 0
  {
    DivModUnique(a * b, b, a, 0);
  }
}

=== FILE: gostrings.dfy ===
/** The three functions of Go's `strings` package the tileset loader uses. */
module GoStrings {

  /** `sub` occurs in `s` starting at position `i`. */
  predicate OccursAt(s: string, sub: string, i: nat)
  {
    i + |sub| <= |s| && s[i..i + |sub|] == sub
  }

  /** Go's `strings.Contains(s, sub)`. */
  function Contains(s: string, sub: string): (b: bool)
    ensures b <==> exists i: nat :: OccursAt(s, sub, i)
    decreases |s|
  {
    if sub <= s then
      assert OccursAt(s, sub, 0);
      true
    else if |s| == 0 then
      false
    else
      var b := Contains(s[1..], sub);
      assert forall i: nat :: OccursAt(s[1..], sub, i) <==> OccursAt(s, sub, i + 1) by {
        forall i: nat
          ensures OccursAt(s[1..], sub, i) <==> OccursAt(s, sub, i + 1)
        {
          if i + |sub| <= |s[1..]| {
            assert s[1..][i..i + |sub|] == s[i + 1..i + 1 + |sub|];
          }
        }
      }
      assert !OccursAt(s, sub, 0);
      assert (exists i: nat :: OccursAt(s, sub, i)) ==> exists i: nat :: OccursAt(s[1..], sub, i) by {
        if exists i: nat :: OccursAt(s, sub, i) {
          var i: nat :| OccursAt(s, sub, i);
          assert i != 0;
          assert OccursAt(s[1..], sub, i - 1);
        }
      }
      b
  }

  /** Go's `strings.ReplaceAll(s, from, to)` for one-character `from` and `to`. */
  function ReplaceAll(s: string, from: char, to: char): (r: string)
    ensures |r| == |s|
    ensures forall i :: 0 <= i < |s| ==> r[i] == (if s[i] == from then to else s[i])
    ensures from != to ==> from !in r
  {
    if |s| == 0 then ""
    else [if s[0] == from then to else s[0]] + ReplaceAll(s[1..], from, to)
  }

  /** Replacing a character that does not occur changes nothing. */
  lemma ReplaceAllAbsent(s: string, from: char, to: char)
    requires from !in s
    ensures ReplaceAll(s, from, to) == s
  {
  }

  lemma ReplaceAllAppend(a: string, b: string, from: char, to: char)
    ensures ReplaceAll(a + b, from, to) == ReplaceAll(a, from, to) + ReplaceAll(b, from, to)
  {
    var l, r := ReplaceAll(a + b, from, to), ReplaceAll(a, from, to) + ReplaceAll(b, from, to);
    assert forall i :: 0 <= i < |l| ==> l[i] == r[i] by {
      forall i | 0 <= i < |l| ensures l[i] == r[i] {
        if i < |a| {
          assert (a + b)[i] == a[i];
        } else {
          assert (a + b)[i] == b[i - |a|];
        }
      }
    }
  }

  /** Go's `strings.TrimPrefix(s, prefix)`: drops one leading copy of
      `prefix` and leaves `s` alone when it does not start with it. */
  function TrimPrefix(s: string, prefix: string): (r: string)
    ensures prefix <= s ==> prefix + r == s
    ensures !(prefix <= s) ==> r == s
  {
    if prefix <= s then s[|prefix|..] else s
  }
}

=== FILE: mainloop.dfy ===
/** Package main: axis-separated collision pushback and the per-tick update of
    the player (`Game.Update` without the camera). Keyboard state is an
    input; the game's tile size is a positive parameter `T`. Float64 values
    are reals, so rounding is not modelled. */
module MainLoop {
  import opened GoInt
  import opened Geometry
  import opened Wrappers
  import opened SpriteSheets
  import opened Animations
  import opened Entities

  const RunSpeed: real := 2.0
  const Gravity: real := 800.0
  const JumpImpulse: real := -300.0
  /** The fixed tick length, 1/60 s. */
  const Dt: real := 1.0 / 60.0
  /** The fall speed at which `Dy` is clamped. */
  const MaxFallSpeed: real := 300.0

  /** The keys polled in one tick; `Jump` is the "just pressed" edge. */
  datatype Input = Input(Left: bool, Right: bool, Jump: bool)

  /** The part of `Game` the update reads and writes. */
  datatype World = World(player: Player, colliders: seq<Rectangle>)

  /** The sprite's collision box: a T-by-T square at its truncated position. */
  function Box(s: Sprite, T: int): (r: Rectangle)
    requires 0 < T
    ensures r.Min == Point(Trunc(s.X), Trunc(s.Y))
    ensures r.Max == Point(Trunc(s.X) + T, Trunc(s.Y) + T)
  {
    Rect(Trunc(s.X), Trunc(s.Y), Trunc(s.X) + T, Trunc(s.Y) + T)
  }

  /** One iteration of `CheckCollisionHorizontal`'s loop. */
  function PushHorizontal(s: Sprite, c: Rectangle, T: int): (r: Sprite)
    requires 0 < T
    ensures r == s.(X := r.X)
    ensures !c.Overlaps(Box(s, T)) || s.Dx == 0.0 ==> r == s
    ensures c.Overlaps(Box(s, T)) && 0.0 < s.Dx ==> r.X == (c.Min.X - T) as real
    ensures c.Overlaps(Box(s, T)) && s.Dx < 0.0 ==> r.X == c.Max.X as real
    // the push never carries the sprite further in its direction of motion
    ensures 0.0 < s.Dx ==> r.X <= s.X
    ensures s.Dx < 0.0 ==> s.X <= r.X
    // a moving sprite ends up clear of the collider
    ensures s.Dx != 0.0 ==> !c.Overlaps(Box(r, T))
  {
    if c.Overlaps(Box(s, T)) then
      TruncWithinOne(s.X);
      if 0.0 < s.Dx then
        TruncOfInt(c.Min.X - T);
        s.(X := (c.Min.X - T) as real)
      else if s.Dx < 0.0 then
        TruncOfInt(c.Max.X);
        s.(X := c.Max.X as real)
      else
        s
    else
      s
  }

  /** The vertical mirror of `PushHorizontal`, on Y and the sign of Dy. */
  function PushVertical(s: Sprite, c: Rectangle, T: int): (r: Sprite)
    requires 0 < T
    ensures r == s.(Y := r.Y)
    ensures !c.Overlaps(Box(s, T)) || s.Dy == 0.0 ==> r == s
    ensures c.Overlaps(Box(s, T)) && 0.0 < s.Dy ==> r.Y == (c.Min.Y - T) as real
    ensures c.Overlaps(Box(s, T)) && s.Dy < 0.0 ==> r.Y == c.Max.Y as real
    ensures 0.0 < s.Dy ==> r.Y <= s.Y
    ensures s.Dy < 0.0 ==> s.Y <= r.Y
    ensures s.Dy != 0.0 ==> !c.Overlaps(Box(r, T))
  {
    if c.Overlaps(Box(s, T)) then
      TruncWithinOne(s.Y);
      if 0.0 < s.Dy then
        TruncOfInt(c.Min.Y - T);
        s.(Y := (c.Min.Y - T) as real)
      else if s.Dy < 0.0 then
        TruncOfInt(c.Max.Y);
        s.(Y := c.Max.Y as real)
      else
        s
    else
      s
  }

  /** `x` puts a T-wide box flush against the left side of one of `cs`. */
  predicate FlushLeftOfOne(x: real, cs: seq<Rectangle>, T: int)
  {
    exists i :: 0 <= i < |cs| && x == (cs[i].Min.X - T) as real
  }

  /** `x` puts a box flush against the right side of one of `cs`. */
  predicate FlushRightOfOne(x: real, cs: seq<Rectangle>)
  {
    exists i :: 0 <= i < |cs| && x == cs[i].Max.X as real
  }

  /** `y` puts a T-high box flush on top of one of `cs`. */
  predicate FlushAboveOne(y: real, cs: seq<Rectangle>, T: int)
  {
    exists i :: 0 <= i < |cs| && y == (cs[i].Min.Y - T) as real
  }

  /** `y` puts a box flush against the underside of one of `cs`. */
  predicate FlushBelowOne(y: real, cs: seq<Rectangle>)
  {
    exists i :: 0 <= i < |cs| && y == cs[i].Max.Y as real
  }

  /** What holds of the tail of a collider list holds of the whole list. */
  lemma FlushInTail(x: real, cs: seq<Rectangle>, T: int)
    requires 0 < |cs|
    ensures FlushLeftOfOne(x, cs[1..], T) ==> FlushLeftOfOne(x, cs, T)
    ensures FlushRightOfOne(x, cs[1..]) ==> FlushRightOfOne(x, cs)
    ensures FlushAboveOne(x, cs[1..], T) ==> FlushAboveOne(x, cs, T)
    ensures FlushBelowOne(x, cs[1..]) ==> FlushBelowOne(x, cs)
  {
    forall i | 0 <= i < |cs[1..]|
      ensures cs[1..][i] == cs[i + 1]
    {
    }
  }

  /** `CheckCollisionHorizontal`: each collider in list order, each test on
      the position the previous ones left. */
  function CheckCollisionHorizontal(s: Sprite, colliders: seq<Rectangle>, T: int): (r: Sprite)
    requires 0 < T
    ensures r == s.(X := r.X)
    ensures s.Dx == 0.0 ==> r == s
    ensures 0.0 < s.Dx ==> r.X <= s.X
    ensures s.Dx < 0.0 ==> s.X <= r.X
    // a moved sprite sits flush against the near side of one of the colliders
    ensures r.X != s.X && 0.0 < s.Dx ==> FlushLeftOfOne(r.X, colliders, T)
    ensures r.X != s.X && s.Dx < 0.0 ==> FlushRightOfOne(r.X, colliders)
    decreases |colliders|
  {
    if |colliders| == 0 then s
    else
      var next := PushHorizontal(s, colliders[0], T);
      var r := CheckCollisionHorizontal(next, colliders[1..], T);
      FlushInTail(r.X, colliders, T);
      r
  }

  /** `CheckCollisionVertical`: the same fold on Y. */
  function CheckCollisionVertical(s: Sprite, colliders: seq<Rectangle>, T: int): (r: Sprite)
    requires 0 < T
    ensures r == s.(Y := r.Y)
    ensures s.Dy == 0.0 ==> r == s
    ensures 0.0 < s.Dy ==> r.Y <= s.Y
    ensures s.Dy < 0.0 ==> s.Y <= r.Y
    ensures r.Y != s.Y && 0.0 < s.Dy ==> FlushAboveOne(r.Y, colliders, T)
    ensures r.Y != s.Y && s.Dy < 0.0 ==> FlushBelowOne(r.Y, colliders)
    decreases |colliders|
  {
    if |colliders| == 0 then s
    else
      var next := PushVertical(s, colliders[0], T);
      var r := CheckCollisionVertical(next, colliders[1..], T);
      FlushInTail(r.Y, colliders, T);
      r
  }

  /** Colliders are handled strictly in sequence: checking `a + b` is
      checking `a`, then `b` from where `a` left the sprite. */
  lemma {:induction false} HorizontalSequential(s: Sprite, a: seq<Rectangle>, b: seq<Rectangle>, T: int)
    requires 0 < T
    ensures CheckCollisionHorizontal(s, a + b, T)
         == CheckCollisionHorizontal(CheckCollisionHorizontal(s, a, T), b, T)
    decreases |a|
  {
    if |a| == 0 {
      assert a + b == b;
    } else {
      assert (a + b)[0] == a[0] && (a + b)[1..] == a[1..] + b;
      HorizontalSequential(PushHorizontal(s, a[0], T), a[1..], b, T);
    }
  }

  lemma {:induction false} VerticalSequential(s: Sprite, a: seq<Rectangle>, b: seq<Rectangle>, T: int)
    requires 0 < T
    ensures CheckCollisionVertical(s, a + b, T)
         == CheckCollisionVertical(CheckCollisionVertical(s, a, T), b, T)
    decreases |a|
  {
    if |a| == 0 {
      assert a + b == b;
    } else {
      assert (a + b)[0] == a[0] && (a + b)[1..] == a[1..] + b;
      VerticalSequential(PushVertical(s, a[0], T), a[1..], b, T);
    }
  }

  /** Against a single collider, a moving sprite is always left clear of it. */
  lemma SingleColliderSeparates(s: Sprite, c: Rectangle, T: int)
    requires 0 < T
    ensures s.Dx != 0.0 ==> !c.Overlaps(Box(CheckCollisionHorizontal(s, [c], T), T))
    ensures s.Dy != 0.0 ==> !c.Overlaps(Box(CheckCollisionVertical(s, [c], T), T))
  {
    assert [c][1..] == [];
  }

  /** A sprite moving right (Dx = 2) whose 16-pixel box overlaps a collider
      spanning x in [50, 66) is put with its right edge on x = 50. */
  lemma PushAgainstWallExample()
    ensures CheckCollisionHorizontal(Sprite(36.0, 0.0, 2.0, 0.0, ""), [Rect(50, 0, 66, 16)], 16).X == 34.0
  {
    var s := Sprite(36.0, 0.0, 2.0, 0.0, "");
    var c := Rect(50, 0, 66, 16);
    RectOrdered(50, 0, 66, 16);
    TruncOfInt(36);
    TruncOfInt(0);
    assert c.Overlaps(Box(s, 16));
    assert [c][1..] == [];
  }

  /** Order matters: a later push can move the sprite into a collider that an
      earlier test found clear, and that collider is not tested again. */
  lemma LaterPushCanReenterEarlierCollider()
    ensures var cs := [Rect(-10, 0, -5, 16), Rect(20, 0, 40, 16), Rect(0, 0, 8, 16)];
      cs[0].Overlaps(Box(CheckCollisionHorizontal(Sprite(10.0, 0.0, 2.0, 0.0, ""), cs, 16), 16))
  {
    var cs := [Rect(-10, 0, -5, 16), Rect(20, 0, 40, 16), Rect(0, 0, 8, 16)];
    RectOrdered(-10, 0, -5, 16);
    RectOrdered(20, 0, 40, 16);
    RectOrdered(0, 0, 8, 16);
    var s0 := Sprite(10.0, 0.0, 2.0, 0.0, "");
    TruncOfInt(10);
    TruncOfInt(0);
    var s1 := PushHorizontal(s0, cs[0], 16);
    assert s1 == s0;
    var s2 := PushHorizontal(s1, cs[1], 16);
    assert s2.X == 4.0;
    TruncOfInt(4);
    var s3 := PushHorizontal(s2, cs[2], 16);
    assert s3.X == -16.0;
    TruncOfInt(-16);
    assert cs[1..][1..][1..] == [];
    assert CheckCollisionHorizontal(s0, cs, 16) == s3;
  }

  /** The keyboard part of the update: Dx is reset, Left then Right set it
      (so Right wins), Flip follows the key that set it, then X moves by Dx. */
  function Steer(p: Player, input: Input): (r: Player)
    ensures r.Health == p.Health && r.Animations == p.Animations
    ensures r.Sprite == p.Sprite.(X := r.Sprite.X, Dx := r.Sprite.Dx)
    ensures input.Right ==> r.Sprite.Dx == RunSpeed && !r.Flip
    ensures input.Left && !input.Right ==> r.Sprite.Dx == -RunSpeed && r.Flip
    ensures !input.Left && !input.Right ==> r.Sprite.Dx == 0.0 && r.Flip == p.Flip
    ensures r.Sprite.X == p.Sprite.X + r.Sprite.Dx
  {
    var dx := if input.Right then RunSpeed else if input.Left then -RunSpeed else 0.0;
    var flip := if input.Right then false else if input.Left then true else p.Flip;
    p.(Sprite := p.Sprite.(Dx := dx, X := p.Sprite.X + dx), Flip := flip)
  }

  /** `activeAnim.Update()`: the clip chosen from the truncated velocity
      advances one tick; every other clip is left alone. */
  function AdvanceActiveAnimation(p: Player): (r: Player)
    ensures r == p.(Animations := r.Animations)
    ensures r.Animations.Keys == p.Animations.Keys
    ensures forall k :: k in p.Animations ==>
      r.Animations[k] == (if SelectState(Trunc(p.Sprite.Dx), Trunc(p.Sprite.Dy)) == Some(k)
                          then Update(p.Animations[k]) else p.Animations[k])
  {
    var key := SelectState(Trunc(p.Sprite.Dx), Trunc(p.Sprite.Dy));
    match ActiveAnimation(p, Trunc(p.Sprite.Dx), Trunc(p.Sprite.Dy))
    case None => p
    case Some(a) => p.(Animations := p.Animations[key.value := Update(a)])
  }

  /** A just-pressed jump sets an upward Dy and labels the state, with no
      test of whether the player stands on anything. */
  function Jump(p: Player, pressed: bool): (r: Player)
    ensures r == p.(Sprite := r.Sprite)
    ensures r.Sprite == p.Sprite.(Dy := r.Sprite.Dy, State := r.Sprite.State)
    ensures pressed ==> r.Sprite.Dy == JumpImpulse && r.Sprite.Dy < 0.0 && r.Sprite.State == "jumping"
    ensures !pressed ==> r == p
  {
    if pressed then p.(Sprite := p.Sprite.(Dy := JumpImpulse, State := "jumping")) else p
  }

  /** Gravity, position integration and the fall-speed clamp. Y moves by the
      velocity before the clamp; the state label is recomputed every tick. */
  function Fall(p: Player, moving: bool): (r: Player)
    ensures r == p.(Sprite := r.Sprite)
    ensures r.Sprite == p.Sprite.(Y := r.Sprite.Y, Dy := r.Sprite.Dy, State := r.Sprite.State)
    ensures r.Sprite.Dy <= MaxFallSpeed
    ensures var v := p.Sprite.Dy + Gravity * Dt;
      && r.Sprite.Y == p.Sprite.Y + v * Dt
      && (v > MaxFallSpeed ==> r.Sprite.Dy == MaxFallSpeed && r.Sprite.State == (if moving then "running" else "idle"))
      && (v <= MaxFallSpeed ==> r.Sprite.Dy == v && r.Sprite.State == "jumping")
  {
    var dy := p.Sprite.Dy + Gravity * Dt;
    var y := p.Sprite.Y + dy * Dt;
    if dy > MaxFallSpeed then
      p.(Sprite := p.Sprite.(Y := y, Dy := MaxFallSpeed, State := if moving then "running" else "idle"))
    else
      p.(Sprite := p.Sprite.(Y := y, Dy := dy, State := "jumping"))
  }

  /** `Game.Update` without the camera: steer, push out horizontally, advance
      the active clip, jump, fall, push out vertically. */
  function Tick(w: World, input: Input, T: int): (r: World)
    requires 0 < T
    ensures r.colliders == w.colliders
    ensures r.player.Health == w.player.Health
    ensures r.player.Animations.Keys == w.player.Animations.Keys
    ensures r.player.Sprite.Dy <= MaxFallSpeed
    ensures input.Right ==> r.player.Sprite.Dx == RunSpeed && !r.player.Flip
    ensures input.Left && !input.Right ==> r.player.Sprite.Dx == -RunSpeed && r.player.Flip
    ensures !input.Left && !input.Right ==> r.player.Sprite.Dx == 0.0 && r.player.Flip == w.player.Flip
  {
    var moving := input.Left || input.Right;
    var p1 := Steer(w.player, input);
    var p2 := p1.(Sprite := CheckCollisionHorizontal(p1.Sprite, w.colliders, T));
    var p3 := AdvanceActiveAnimation(p2);
    var p4 := Jump(p3, input.Jump);
    var p5 := Fall(p4, moving);
    var p6 := p5.(Sprite := CheckCollisionVertical(p5.Sprite, w.colliders, T));
    World(p6, w.colliders)
  }

  /** The velocity and state a tick leaves: Dy is the old one (or the jump
      impulse) plus one tick of gravity, clamped at the fall speed, and the
      state label depends only on that and the arrow keys, never on the label
      before or on the jump's own "jumping". */
  lemma TickVertical(w: World, input: Input, T: int)
    requires 0 < T
    ensures var v := (if input.Jump then JumpImpulse else w.player.Sprite.Dy) + Gravity * Dt;
      var r := Tick(w, input, T).player.Sprite;
      && (v > MaxFallSpeed ==> r.Dy == MaxFallSpeed && r.State == (if input.Left || input.Right then "running" else "idle"))
      && (v <= MaxFallSpeed ==> r.Dy == v && r.State == "jumping")
  {
  }

  /** With no colliders nothing pushes back: a tick moves X by the new Dx
      and Y by the new, unclamped vertical velocity over one tick. */
  lemma TickInOpenSpace(w: World, input: Input, T: int)
    requires 0 < T && w.colliders == []
    ensures var v := (if input.Jump then JumpImpulse else w.player.Sprite.Dy) + Gravity * Dt;
      var s := Tick(w, input, T).player.Sprite;
      && s.X == w.player.Sprite.X + s.Dx
      && s.Y == w.player.Sprite.Y + v * Dt
  {
  }

  /** What the jump is for: in open space a tick with the jump key pressed
      moves the player up, whatever its vertical velocity was. */
  lemma JumpRisesInOpenSpace(w: World, left: bool, right: bool, T: int)
    requires 0 < T && w.colliders == []
    ensures Tick(w, Input(left, right, true), T).player.Sprite.Y < w.player.Sprite.Y
  {
    var input := Input(left, right, true);
    TickInOpenSpace(w, input, T);
    var v := JumpImpulse + Gravity * Dt;
    assert v < 0.0;
    assert v * Dt < 0.0;
  }

  /** Standing on the ground the fall speed sits at the clamp; a jump from
      there, without an arrow key, leaves a velocity for which no clip is
      selected, so the next frame has no active animation. */
  lemma JumpFromRestSelectsNoClip(w: World, T: int)
    requires 0 < T && w.player.Sprite.Dy == MaxFallSpeed
    ensures var p := Tick(w, Input(false, false, true), T).player;
      ActiveAnimation(p, Trunc(p.Sprite.Dx), Trunc(p.Sprite.Dy)) == None
  {
    var p := Tick(w, Input(false, false, true), T).player;
    TickVertical(w, Input(false, false, true), T);
    assert p.Sprite.Dy == JumpImpulse + Gravity * Dt;
    assert Trunc(p.Sprite.Dy) < 0;
  }

  /** The player `NewGame` builds: at (30, 180), health 100, with a clip for
      each of Idle, Running and Jumping, all stepping by one frame every six
      updates over sheets of 2T-pixel frames, one row each. */
  function NewPlayer(T: int, idleImg: Image, runImg: Image, jumpImg: Image): (p: Player)
    ensures p.Sprite == Sprite(30.0, 180.0, 0.0, 0.0, "") && p.Health == 100 && !p.Flip
    ensures p.Animations.Keys == {Idle, Running, Jumping}
    ensures forall k :: k in p.Animations ==>
      && p.Animations[k].First == 0 && CurrentFrame(p.Animations[k]) == 0
      && p.Animations[k].Step == 1 && p.Animations[k].SpeedInTps == 5
      && 0 <= p.Animations[k].Last < p.Animations[k].Spritesheet.WidthInTiles
      && p.Animations[k].Spritesheet.Tilesize == 2 * T
  {
    var idleSheet := NewSpriteSheet(11, 0, T * 2);
    var runSheet := NewSpriteSheet(12, 0, T * 2);
    var jumpSheet := NewSpriteSheet(1, 0, T * 2);
    Player(
      Sprite(30.0, 180.0, 0.0, 0.0, ""),
      100,
      map[
        Idle := NewAnimation(0, 10, 1, 5, idleSheet, idleImg),
        Running := NewAnimation(0, 11, 1, 5, runSheet, runImg),
        Jumping := NewAnimation(0, 0, 1, 5, jumpSheet, jumpImg)],
      false)
  }

  /** However many updates a clip of the new player has had, the frame it
      shows is on the first row of its sheet, inside the sheet's width. */
  lemma NewPlayerFramesStayOnSheet(T: int, idleImg: Image, runImg: Image, jumpImg: Image, k: PlayerState, n: nat)
    requires 0 < T
    requires k in NewPlayer(T, idleImg, runImg, jumpImg).Animations
    ensures var a := NewPlayer(T, idleImg, runImg, jumpImg).Animations[k];
      var f := CurrentFrame(UpdateTimes(a, n));
      && 0 <= f < a.Spritesheet.WidthInTiles
      && FrameRect(a.Spritesheet, f).Min == Point(f * (2 * T), 0)
  {
    var a := NewPlayer(T, idleImg, runImg, jumpImg).Animations[k];
    assert a.First == 0 && a.frame == 0 && a.Step == 1;
    assert a.Last < a.Spritesheet.WidthInTiles && a.Spritesheet.Tilesize == 2 * T;
    var b := UpdateTimes(a, n);
    assert 0 <= b.frame <= b.Last && b.Spritesheet == a.Spritesheet;
    var f := CurrentFrame(b);
    FrameRectFirstRow(a.Spritesheet, f);
  }

  /** Walking left on the ground (the fall speed sits at the clamp) shows the
      new player's Jumping clip, since a positive Dy outranks the missing
      leftward case. */
  lemma WalkingLeftShowsJumpClip(T: int, idleImg: Image, runImg: Image, jumpImg: Image)
    ensures var p := NewPlayer(T, idleImg, runImg, jumpImg);
      ActiveAnimation(p, Trunc(-RunSpeed), Trunc(MaxFallSpeed)) == Some(p.Animations[Jumping])
  {
    TruncOfInt(-2);
    TruncOfInt(300);
  }
}

=== FILE: spritesheet.dfy ===
/** Package spritesheet: square frames laid out row-major on one image. */
module SpriteSheets {
  import opened GoInt
  import opened Geometry

  /** `WidthInTiles` frames per row, each `Tilesize` pixels square. */
  datatype SpriteSheet = SpriteSheet(WidthInTiles: int, HeightInTiles: int, Tilesize: int)

  /** `NewSpriteSheet` keeps its three arguments as they are. */
  function NewSpriteSheet(widthInTiles: int, heightInTiles: int, tilesize: int): (s: SpriteSheet)
    ensures s.WidthInTiles == widthInTiles
    ensures s.HeightInTiles == heightInTiles
    ensures s.Tilesize == tilesize
  {
    SpriteSheet(widthInTiles, heightInTiles, tilesize)
  }

  /** `SpriteSheet.Rect(index)`: the source rectangle of frame `index`.
      Go's `%` and `/` panic on a zero sheet width. */
  function FrameRect(s: SpriteSheet, index: int): (r: Rectangle)
    requires s.WidthInTiles != 0
    ensures r.WellFormed()
    ensures 0 <= s.Tilesize ==> r.Max == Point(r.Min.X + s.Tilesize, r.Min.Y + s.Tilesize)
    ensures 0 <= index && 0 < s.WidthInTiles && 0 <= s.Tilesize ==>
      r.Min == Point((index % s.WidthInTiles) * s.Tilesize, (index / s.WidthInTiles) * s.Tilesize)
  {
    var x := Rem(index, s.WidthInTiles) * s.Tilesize;
    var y := Quot(index, s.WidthInTiles) * s.Tilesize;
    Rect(x, y, x + s.Tilesize, y + s.Tilesize)
  }

  /** The frame index whose rectangle has its corner at `p`: the inverse of
      `FrameRect` on a sheet with positive dimensions. */
  function IndexAt(s: SpriteSheet, p: Point): int
    requires 0 < s.Tilesize
  {
    (p.Y / s.Tilesize) * s.WidthInTiles + p.X / s.Tilesize
  }

  /** The column never leaves the sheet width and the row is never negative. */
  lemma FrameRectColumnWithinSheet(s: SpriteSheet, index: int)
    requires 0 <= index && 0 < s.WidthInTiles && 0 <= s.Tilesize
    ensures 0 <= FrameRect(s, index).Min.X <= (s.WidthInTiles - 1) * s.Tilesize
    ensures 0 <= FrameRect(s, index).Min.Y
  {
    MulMonotone(0, index % s.WidthInTiles, s.Tilesize);
    MulMonotone(index % s.WidthInTiles, s.WidthInTiles - 1, s.Tilesize);
    MulMonotone(0, index / s.WidthInTiles, s.Tilesize);
  }

  /** One row further down: same column, `Tilesize` pixels lower. */
  lemma FrameRectNextRow(s: SpriteSheet, index: int)
    requires 0 <= index && 0 < s.WidthInTiles && 0 <= s.Tilesize
    ensures FrameRect(s, index + s.WidthInTiles).Min.X == FrameRect(s, index).Min.X
    ensures FrameRect(s, index + s.WidthInTiles).Min.Y == FrameRect(s, index).Min.Y + s.Tilesize
  {
    var w := s.WidthInTiles;
    DivModUnique(index + w, w, index / w + 1, index % w);
    assert (index / w + 1) * s.Tilesize == (index / w) * s.Tilesize + s.Tilesize;
  }

  /** Frame `index` can be recovered from its rectangle. */
  lemma FrameRectRoundTrip(s: SpriteSheet, index: int)
    requires 0 <= index && 0 < s.WidthInTiles && 0 < s.Tilesize
    ensures IndexAt(s, FrameRect(s, index).Min) == index
  {
    MulDivCancel(index % s.WidthInTiles, s.Tilesize);
    MulDivCancel(index / s.WidthInTiles, s.Tilesize);
  }

  /** Distinct frames get distinct rectangles. */
  lemma FrameRectInjective(s: SpriteSheet, i: int, j: int)
    requires 0 <= i && 0 <= j && i != j && 0 < s.WidthInTiles && 0 < s.Tilesize
    ensures FrameRect(s, i) != FrameRect(s, j)
  {
    FrameRectRoundTrip(s, i);
    FrameRectRoundTrip(s, j);
  }

  /** `HeightInTiles` is never consulted: no bound is placed on the row. */
  lemma FrameRectIgnoresHeight(s: SpriteSheet, h: int, index: int)
    requires s.WidthInTiles != 0
    ensures FrameRect(s.(HeightInTiles := h), index) == FrameRect(s, index)
  {
  }

  /** Go's truncating division keeps a negative index on row 0, to the left
      of the sheet, instead of wrapping it to the previous row. */
  lemma FrameRectNegativeIndex(s: SpriteSheet, index: int)
    requires 0 < s.WidthInTiles && -s.WidthInTiles < index < 0 && 0 <= s.Tilesize
    ensures FrameRect(s, index).Min == Point(index * s.Tilesize, 0)
  {
    assert Quot(index, s.WidthInTiles) == 0;
  }

  /** A twelve-frame-wide sheet of 16-pixel frames: frame 13 is the second
      frame of the second row. */
  lemma FrameRectSecondRowExample()
    ensures FrameRect(SpriteSheet(12, 0, 16), 13) == Rectangle(Point(16, 16), Point(32, 32))
  {
    var r := FrameRect(SpriteSheet(12, 0, 16), 13);
    assert 13 / 12 == 1 && 13 % 12 == 1;
    assert r.Min == Point(16, 16);
  }

  /** The first `WidthInTiles` frames lie side by side on row 0. */
  lemma FrameRectFirstRow(s: SpriteSheet, index: int)
    requires 0 <= index < s.WidthInTiles && 0 <= s.Tilesize
    ensures FrameRect(s, index).Min == Point(index * s.Tilesize, 0)
  {
    DivModUnique(index, s.WidthInTiles, 0, index);
  }

  /** Frame 0 is the top-left square of any sheet. */
  lemma FrameRectFirstFrame(s: SpriteSheet)
    requires 0 < s.WidthInTiles && 0 <= s.Tilesize
    ensures FrameRect(s, 0) == Rectangle(Point(0, 0), Point(s.Tilesize, s.Tilesize))
  {
    DivModUnique(0, s.WidthInTiles, 0, 0);
  }

}

=== FILE: tilemap.dfy ===
/** Package tilemap: the decoded map document and the collision rectangles
    derived from its object layers. */
module Tilemaps {
  import opened GoInt
  import opened Geometry

  /** A map object; its float64 fields are modelled as reals. */
  datatype Object = Object(
    ID: int,
    Name: string,
    Type: string,
    Visible: bool,
    Rotation: real,
    Height: real,
    Width: real,
    X: real,
    Y: real)

  datatype TilemapLayerJSON = TilemapLayerJSON(
    Data: seq<int>,
    Width: int,
    Height: int,
    Name: string,
    Objects: seq<Object>)

  /** The map document; its untyped tileset list is read only by the tileset
      loader, which is not part of this model. */
  datatype TilemapJSON = TilemapJSON(Layers: seq<TilemapLayerJSON>)

  /** The rectangle of one object: each coordinate truncated on its own, then
      passed through `image.Rect`. */
  function ObjectCollider(o: Object): (r: Rectangle)
    ensures r.WellFormed()
    ensures 0.0 <= o.Width && 0.0 <= o.Height ==>
      && r.Min == Point(Trunc(o.X), Trunc(o.Y))
      && r.Dx() == Trunc(o.Width) && r.Dy() == Trunc(o.Height)
  {
    Rect(Trunc(o.X), Trunc(o.Y), Trunc(o.X) + Trunc(o.Width), Trunc(o.Y) + Trunc(o.Height))
  }

  /** Number of objects over all layers. */
  function ObjectCount(layers: seq<TilemapLayerJSON>): nat
  {
    if |layers| == 0 then 0 else |layers[0].Objects| + ObjectCount(layers[1..])
  }

  /** The colliders of one layer, one per object, in object order. */
  function LayerColliders(objects: seq<Object>): (r: seq<Rectangle>)
    ensures |r| == |objects|
    ensures forall j :: 0 <= j < |objects| ==> r[j] == ObjectCollider(objects[j])
  {
    if |objects| == 0 then [] else [ObjectCollider(objects[0])] + LayerColliders(objects[1..])
  }

  function CollidersOf(layers: seq<TilemapLayerJSON>): (r: seq<Rectangle>)
    ensures |r| == ObjectCount(layers)
  {
    if |layers| == 0 then [] else LayerColliders(layers[0].Objects) + CollidersOf(layers[1..])
  }

  /** `TilemapJSON.GetColliders`: one rectangle per object of every layer. */
  function GetColliders(t: TilemapJSON): (r: seq<Rectangle>)
    ensures |r| == ObjectCount(t.Layers)
    ensures |t.Layers| == 0 ==> r == []
  {
    CollidersOf(t.Layers)
  }

  lemma {:induction false} CollidersOfAppend(a: seq<TilemapLayerJSON>, b: seq<TilemapLayerJSON>)
    ensures CollidersOf(a + b) == CollidersOf(a) + CollidersOf(b)
    decreases |a|
  {
    if |a| == 0 {
      assert a + b == b;
    } else {
      assert (a + b)[0] == a[0];
      assert (a + b)[1..] == a[1..] + b;
      var head := LayerColliders(a[0].Objects);
      calc {
        CollidersOf(a + b);
        head + CollidersOf(a[1..] + b);
        { CollidersOfAppend(a[1..], b); }
        head + (CollidersOf(a[1..]) + CollidersOf(b));
        (head + CollidersOf(a[1..])) + CollidersOf(b);
        CollidersOf(a) + CollidersOf(b);
      }
    }
  }

  /** Object j of layer i lands at position ObjectCount(layers[..i]) + j:
      layer order first, then object order within the layer. */
  lemma CollidersOfOrder(layers: seq<TilemapLayerJSON>, i: nat, j: nat)
    requires i < |layers| && j < |layers[i].Objects|
    ensures ObjectCount(layers[..i]) + j < |CollidersOf(layers)|
    ensures CollidersOf(layers)[ObjectCount(layers[..i]) + j] == ObjectCollider(layers[i].Objects[j])
  {
    var pre, post := layers[..i], layers[i..];
    assert layers == pre + post;
    CollidersOfAppend(pre, post);
    var front, back := CollidersOf(pre), CollidersOf(post);
    assert CollidersOf(layers) == front + back;
    assert |front| == ObjectCount(pre);
    assert back[j] == ObjectCollider(layers[i].Objects[j]) by {
      assert post[0] == layers[i];
      assert back == LayerColliders(post[0].Objects) + CollidersOf(post[1..]);
    }
    assert (front + back)[|front| + j] == back[j];
  }

  /** `GetColliders` lists every object, layer by layer, in order. */
  lemma GetCollidersOrder(t: TilemapJSON, i: nat, j: nat)
    requires i < |t.Layers| && j < |t.Layers[i].Objects|
    ensures ObjectCount(t.Layers[..i]) + j < |GetColliders(t)|
    ensures GetColliders(t)[ObjectCount(t.Layers[..i]) + j] == ObjectCollider(t.Layers[i].Objects[j])
  {
    CollidersOfOrder(t.Layers, i, j);
  }

  /** A layer without objects contributes nothing, wherever it sits. */
  lemma EmptyLayerContributesNothing(before: seq<TilemapLayerJSON>, layer: TilemapLayerJSON, after: seq<TilemapLayerJSON>)
    requires |layer.Objects| == 0
    ensures GetColliders(TilemapJSON(before + [layer] + after)) == GetColliders(TilemapJSON(before + after))
  {
    CollidersOfAppend(before + [layer], after);
    CollidersOfAppend(before, [layer]);
    CollidersOfAppend(before, after);
  }

  /** One layer holding the object {x: 10, y: 20, width: 5, height: 5} gives
      the single collider (10,20)-(15,25). */
  lemma GetCollidersExample()
    ensures GetColliders(TilemapJSON([TilemapLayerJSON([], 0, 0, "", [Object(1, "", "", true, 0.0, 5.0, 5.0, 10.0, 20.0)])]))
         == [Rectangle(Point(10, 20), Point(15, 25))]
  {
    var o := Object(1, "", "", true, 0.0, 5.0, 5.0, 10.0, 20.0);
    TruncOfInt(5);
    TruncOfInt(10);
    TruncOfInt(20);
    assert ObjectCollider(o) == Rectangle(Point(10, 20), Point(15, 25));
  }
}

=== FILE: tileset.dfy ===
/** Package tileset: the two kinds of tileset, the lookup of a tile's source
    image, and the choice and construction of a tileset from its decoded
    description. Reading and decoding the file, `filepath.Join("assets/", …)`
    and image decoding are the caller's: the decoded description is a
    parameter and images come from `load`. `filepath.Clean`, which the source
    applies before the slash and prefix fix-ups, is not modelled: the fix-ups
    here act on the raw path. */
module Tilesets {
  import opened Wrappers
  import opened GoInt
  import opened Geometry
  import opened GoStrings

  /** The sheet width the uniform tileset assumes, whatever its image. */
  const TilesPerRow: int := 22

  /** Paths containing this select the per-tile-image kind. */
  const PerTileMarker: string := "buildings"

  datatype TileJSON = TileJSON(Id: int, Path: string, Width: int, Height: int)

  /** A decoded tileset description: the `image` key read by the uniform
      kind and the `tiles` list read by the per-tile kind (absent keys decode
      to their zero value). */
  datatype TilesetJSON = TilesetJSON(Image: string, Tiles: seq<TileJSON>)

  datatype Tileset =
    | UniformTileset(img: Image, gid: int)
    | DynTileset(imgs: seq<Image>, gid: int)

  /** What `Img` returns: a sub-rectangle of a sheet, or a whole image. */
  datatype TileImage = SubImage(sheet: Image, bounds: Rectangle) | WholeImage(img: Image)

  datatype LoadError = UnreadableTileset(path: string) | MissingImage(path: string)

  /** The sheet rectangle of local tile `k` in the uniform tileset; `T` is
      the game's positive tile size. */
  function UniformSource(k: int, T: int): (r: Rectangle)
    requires 0 < T
    ensures r.Max == Point(r.Min.X + T, r.Min.Y + T)
    ensures 0 <= k ==> r.Min == Point((k % TilesPerRow) * T, (k / TilesPerRow) * T)
    ensures k <= 0 ==> r.Min.X <= 0 && r.Min.Y <= 0
  {
    var srcX := Rem(k, TilesPerRow) * T;
    var srcY := Quot(k, TilesPerRow) * T;
    Rect(srcX, srcY, srcX + T, srcY + T)
  }

  /** The local tile whose square has its corner at `p`. */
  function UniformIndexAt(p: Point, T: int): int
    requires 0 < T
  {
    (p.Y / T) * TilesPerRow + p.X / T
  }

  /** `Tileset.Img(id)`. A per-tile lookup outside the image list panics in
      Go; that is `None` here. */
  function Img(ts: Tileset, id: int, T: int): (r: Option<TileImage>)
    requires 0 < T
    ensures ts.UniformTileset? ==>
      && r.Some? && r.value.SubImage? && r.value.sheet == ts.img
      && r.value.bounds.Dx() == T && r.value.bounds.Dy() == T
      && (ts.gid <= id ==>
            r.value.bounds.Min == Point(((id - ts.gid) % TilesPerRow) * T, ((id - ts.gid) / TilesPerRow) * T))
    ensures ts.DynTileset? ==> (r.Some? <==> ts.gid <= id < ts.gid + |ts.imgs|)
    ensures ts.DynTileset? && r.Some? ==> r.value == WholeImage(ts.imgs[id - ts.gid])
  {
    match ts
    case UniformTileset(img, gid) => Some(SubImage(img, UniformSource(id - gid, T)))
    case DynTileset(imgs, gid) =>
      var k := id - gid;
      if 0 <= k < |imgs| then Some(WholeImage(imgs[k])) else None
  }

  /** Local tile k >= 0 can be recovered from its uniform source rectangle. */
  lemma UniformSourceRoundTrip(k: int, T: int)
    requires 0 <= k && 0 < T
    ensures UniformIndexAt(UniformSource(k, T).Min, T) == k
  {
    MulDivCancel(k % TilesPerRow, T);
    MulDivCancel(k / TilesPerRow, T);
  }

  /** An id just below the tileset's first gid stays on row 0, left of the
      sheet: Go's truncating `%` and `/` do not wrap it. */
  lemma UniformSourceBelowGid(k: int, T: int)
    requires -TilesPerRow < k < 0 && 0 < T
    ensures UniformSource(k, T).Min == Point(k * T, 0)
  {
    assert Quot(k, TilesPerRow) == 0;
  }

  /** The path clean-up applied to every image path: backslashes become
      slashes, then at most two leading "../" are dropped. */
  function NormalizePath(p: string): (r: string)
    ensures '\\' !in r
    ensures var q := ReplaceAll(p, '\\', '/');
      && ("../../" <= q ==> q == "../../" + r)
      && ("../" <= q && !("../../" <= q) ==> q == "../" + r)
      && (!("../" <= q) ==> r == q)
  {
    var slashed := ReplaceAll(p, '\\', '/');
    var once := TrimPrefix(slashed, "../");
    TrimPrefix(once, "../")
  }

  /** Exactly two leading "../" are dropped, even when more follow: a path
      with three keeps its third. */
  lemma NormalizePathDropsTwoParents(rest: string)
    requires '\\' !in rest
    ensures NormalizePath("../../" + rest) == rest
    ensures NormalizePath("../../../" + rest) == "../" + rest
  {
    ReplaceAllAbsent("../../" + rest, '\\', '/');
    ReplaceAllAbsent("../../../" + rest, '\\', '/');
    assert "../../../" + rest == "../../" + ("../" + rest);
  }

  /** Windows separators are turned around before the prefixes are dropped. */
  lemma NormalizePathWindows(rest: string)
    requires '\\' !in rest
    ensures NormalizePath("..\\..\\" + rest) == rest
  {
    ReplaceAllAppend("..\\..\\", rest, '\\', '/');
    ReplaceAllAbsent(rest, '\\', '/');
    assert ReplaceAll("..\\..\\", '\\', '/') == "../../";
  }

  /** A path without a parent prefix or backslash is kept as it is. */
  lemma NormalizePathPlain(p: string)
    requires '\\' !in p && !("../" <= p)
    ensures NormalizePath(p) == p
  {
    ReplaceAllAbsent(p, '\\', '/');
  }

  /** The image of one listed tile, looked up by its normalised path. */
  function Fetch(t: TileJSON, load: string -> Option<Image>): Option<Image>
  {
    load(NormalizePath(t.Path))
  }

  /** Tile `i` is the first whose image does not load. */
  predicate FirstMissing(tiles: seq<TileJSON>, load: string -> Option<Image>, i: int)
  {
    && 0 <= i < |tiles|
    && Fetch(tiles[i], load).None?
    && forall j :: 0 <= j < i ==> Fetch(tiles[j], load).Some?
  }

  /** Some listed tile's image does not load. */
  predicate AnyMissing(tiles: seq<TileJSON>, load: string -> Option<Image>)
  {
    exists i :: 0 <= i < |tiles| && Fetch(tiles[i], load).None?
  }

  /** Behind a tile that loads, the list and its tail fail alike. */
  lemma MissingBehindLoadedHead(tiles: seq<TileJSON>, load: string -> Option<Image>)
    requires 0 < |tiles| && Fetch(tiles[0], load).Some?
    ensures AnyMissing(tiles, load) <==> AnyMissing(tiles[1..], load)
    ensures forall i :: FirstMissing(tiles[1..], load, i) ==> FirstMissing(tiles, load, i + 1)
  {
    forall i | 0 <= i < |tiles[1..]|
      ensures tiles[1..][i] == tiles[i + 1]
    {
    }
    if AnyMissing(tiles, load) {
      var i :| 0 <= i < |tiles| && Fetch(tiles[i], load).None?;
      assert tiles[1..][i - 1] == tiles[i];
    }
  }

  /** The per-tile images, loaded in list order; the first path that does
      not load aborts the whole tileset. */
  function LoadTiles(tiles: seq<TileJSON>, load: string -> Option<Image>): (r: Result<seq<Image>, LoadError>)
    ensures r.Success? ==>
      && |r.value| == |tiles|
      && forall i :: 0 <= i < |tiles| ==> Fetch(tiles[i], load) == Some(r.value[i])
    ensures r.Failure? <==> AnyMissing(tiles, load)
    ensures r.Failure? ==> exists i :: FirstMissing(tiles, load, i) && r.error == MissingImage(NormalizePath(tiles[i].Path))
  {
    if |tiles| == 0 then Success([])
    else
      var path := NormalizePath(tiles[0].Path);
      match load(path)
      case None =>
        assert FirstMissing(tiles, load, 0);
        Failure(MissingImage(path))
      case Some(img) =>
        MissingBehindLoadedHead(tiles, load);
        match LoadTiles(tiles[1..], load)
        case Failure(e) =>
          var i :| FirstMissing(tiles[1..], load, i) && e == MissingImage(NormalizePath(tiles[1..][i].Path));
          assert tiles[1..][i] == tiles[i + 1];
          Failure(e)
        case Success(imgs) =>
          assert forall i :: 1 <= i < |tiles| ==> tiles[1..][i - 1] == tiles[i];
          Success([img] + imgs)
  }

  /** `NewTileset(path, gid)`: `file` is the decoded description (None when
      it cannot be read or decoded) and `load` resolves an image path. */
  function NewTileset(path: string, gid: int, file: Option<TilesetJSON>, load: string -> Option<Image>): (r: Result<Tileset, LoadError>)
    ensures file.None? ==> r == Failure(UnreadableTileset(path))
    ensures r.Success? ==> r.value.gid == gid
    ensures r.Success? ==> (r.value.DynTileset? <==> Contains(path, PerTileMarker))
    ensures file.Some? && Contains(path, PerTileMarker) ==>
      && (r.Success? <==> LoadTiles(file.value.Tiles, load).Success?)
      && (r.Success? ==> r.value.imgs == LoadTiles(file.value.Tiles, load).value)
    ensures file.Some? && !Contains(path, PerTileMarker) ==>
      && (r.Success? <==> load(NormalizePath(file.value.Image)).Some?)
      && (r.Success? ==> r.value.img == load(NormalizePath(file.value.Image)).value)
  {
    match file
    case None => Failure(UnreadableTileset(path))
    case Some(desc) =>
      if Contains(path, PerTileMarker) then
        match LoadTiles(desc.Tiles, load)
        case Failure(e) => Failure(e)
        case Success(imgs) => Success(DynTileset(imgs, gid))
      else
        var imgPath := NormalizePath(desc.Image);
        match load(imgPath)
        case None => Failure(MissingImage(imgPath))
        case Some(img) => Success(UniformTileset(img, gid))
  }

  /** The `Id` field of a tile entry is never consulted: only the paths, in
      list order, decide the images. */
  lemma {:induction false} LoadTilesIgnoresIds(a: seq<TileJSON>, b: seq<TileJSON>, load: string -> Option<Image>)
    requires |a| == |b| && forall i :: 0 <= i < |a| ==> a[i].Path == b[i].Path
    ensures LoadTiles(a, load) == LoadTiles(b, load)
    decreases |a|
  {
    if |a| != 0 {
      assert forall i :: 0 <= i < |a[1..]| ==> a[1..][i].Path == b[1..][i].Path by {
        forall i | 0 <= i < |a[1..]| ensures a[1..][i].Path == b[1..][i].Path {
          assert a[1..][i] == a[i + 1] && b[1..][i] == b[i + 1];
        }
      }
      LoadTilesIgnoresIds(a[1..], b[1..], load);
    }
  }

  /** End to end: in a per-tile tileset, id gid + i shows the image loaded
      from the i-th listed tile, whatever that tile's `Id` says. */
  lemma DynTilesetLookup(path: string, gid: int, desc: TilesetJSON, load: string -> Option<Image>, i: int, T: int)
    requires 0 < T && 0 <= i < |desc.Tiles|
    requires NewTileset(path, gid, Some(desc), load).Success?
    requires Contains(path, PerTileMarker)
    ensures Img(NewTileset(path, gid, Some(desc), load).value, gid + i, T)
         == Some(WholeImage(load(NormalizePath(desc.Tiles[i].Path)).value))
  {
    var loaded := LoadTiles(desc.Tiles, load);
    var ts := NewTileset(path, gid, Some(desc), load).value;
    assert loaded.Success? && ts.DynTileset? && ts.gid == gid && ts.imgs == loaded.value;
    assert Fetch(desc.Tiles[i], load) == Some(loaded.value[i]);
    assert Img(ts, gid + i, T) == Some(WholeImage(ts.imgs[i]));
  }
}

=== FILE: wrappers.dfy ===
/** Optional values and results with an error, for the source's nil returns,
    run-time panics and `error` results. */
module Wrappers {

  datatype Option<+T> = None | Some(value: T)

  datatype Result<+T, +E> = Success(value: T) | Failure(error: E)
}
